=== FILE: README.md ===
# Luau constraint solver: worklist and blocking registry

A Dafny model of the bookkeeping in Luau's constraint solver (`ConstraintSolver`). The solver
holds three things:

- the constraints it must resolve;
- the set of constraints not yet solved;
- a blocking registry.

The registry has two maps. The first counts, per constraint, how many things it is blocked on
(`blockedConstraints`). The second maps each blocking key to the constraints waiting on it
(`blocked`). A blocking key is a type, a type pack or another constraint. The source erases it
to an untyped pointer; here it is the datatype `BlockKey` (`TypeKey`, `PackKey`,
`ConstraintKey`), which is only ever compared for equality.

Modules:

- `SolverState` (`state.dfy`): the identifiers, the `Solver` record and its fields, the
  constructor `Init`, and the queries `BlockCount`, `Waiters`, `IsBlocked` and `Done`.
  `Done` holds exactly when the unsolved set is empty. It also has `ReportErrors`.
- `BlockingRegistry` (`registry.dfy`): `Block` and `Unblock`, plus the invariant `Consistent`.
  `Consistent` says that a constraint's count equals the number of times it is registered
  across all reverse entries, and that no key keeps an empty reverse entry. Reverse entries are
  lists, so registering the same key twice counts twice.
- `Worklist` (`worklist.dfy`): `TryDispatch`, one scan `Pass`, and `Run`.
  - The per-variant handlers are an oracle. Given a constraint and the state, it answers either
    `Solved(errors, progressed keys)` or `Pending(errors, keys to wait on)`.
  - `Run` repeats passes while a pass solves something. Each such pass shrinks the unsolved set,
    so `Run` terminates without a fuel bound.
  - The reachable-state invariant `Valid` says four things: the constraints are distinct, the
    registry is `Consistent`, every blocked constraint is unsolved, and every unsolved constraint
    is one of the solver's constraints.
- `Scenarios` (`scenarios.dfy`): two concrete graphs. In the first, an instantiation is listed
  before the generalization it needs. In the second, two constraints wait on each other.

Modelling choices:

- The model follows the declarations and doc comments of `ConstraintSolver.h` and the types of
  its fields.
- The header's `block_`/`unblock_` is `Block`/`Unblock`. The typed overloads of `block` and
  `unblock` are the three `BlockKey` constructors.
- A successful `TryDispatch` removes the constraint from the unsolved set. It then unblocks the
  constraint's own key and every key the handler reports as progressed.
- A constraint released by `Unblock` is attempted again when a later visit of the scan reaches
  it. It is not re-dispatched inside `Unblock` itself.
- The scan order is the order of `constraints`, not hash order.

## Model

| member | source | states |
|---|---|---|
| `SolverState.Init` | Analysis/include/Luau/ConstraintSolver.h:23-39 | A new solver holds every given constraint (each given once) as unsolved, blocks nothing, lists nothing under any key and has no errors; it is done exactly when there are no constraints |
| `SolverState.ReportErrors` | Analysis/include/Luau/ConstraintSolver.h:85 | Reported errors are appended after the existing ones, which are kept unchanged; no other field changes |
| `SolverState.ReportErrorsBatches` | Analysis/include/Luau/ConstraintSolver.h:85 | Reporting two batches one after the other gives the same errors, in the same order, as reporting them together |
| `SolverState.IsBlockedMeansPositiveEntry` | Analysis/include/Luau/ConstraintSolver.h:79-83 | `isBlocked` is true exactly when the count map has an entry for the constraint and it is positive. A missing entry and an entry of 0 both read as not blocked, as the comment on the count map (lines 32-34) allows |
| `SolverState.Done` | Analysis/include/Luau/ConstraintSolver.h:48 | `done()` holds exactly when no constraint is left unsolved |
| `BlockingRegistry.Block` | Analysis/include/Luau/ConstraintSolver.h:56-66 | After blocking `c` on a key, `c` is blocked and listed under that key; its count rises by one, and no other constraint's count changes. Other keys' lists and the unsolved set are unchanged |
| `BlockingRegistry.Release` | Analysis/include/Luau/ConstraintSolver.h:32-37 | Each listed waiter's count falls by the number of times it is listed; all other counts are kept |
| `BlockingRegistry.Unblock` | Analysis/include/Luau/ConstraintSolver.h:68-77 | After unblocking a key, that key lists nothing and every constraint it listed waits on one thing fewer per registration. Constraints it did not list keep their counts, and other keys' lists and the unsolved set are unchanged |
| `BlockingRegistry.BlockPreservesConsistent` | Analysis/include/Luau/ConstraintSolver.h:56-66 | Blocking keeps each count equal to the number of outstanding registrations |
| `BlockingRegistry.UnblockPreservesConsistent` | Analysis/include/Luau/ConstraintSolver.h:68-77 | Unblocking keeps each count equal to the number of outstanding registrations, and it never drives a count below zero |
| `BlockingRegistry.BlockedIffListed` | Analysis/include/Luau/ConstraintSolver.h:79-83 | In a consistent registry, a constraint is blocked (nonzero count) exactly when some key lists it as waiting |
| `BlockingRegistry.UnblockReleasesOnlyListed` | Analysis/include/Luau/ConstraintSolver.h:68-77 | After unblocking key `k`, a constraint is still blocked exactly when a key other than `k` lists it; only the keys it waits on can release it |
| `BlockingRegistry.KeyFlavoursDistinct` | Analysis/include/Luau/ConstraintSolver.h:15-17 | A type key, a pack key and a constraint key with the same number are different keys: unblocking the pack or constraint key leaves a constraint waiting on the type key blocked |
| `Worklist.InitValid` | Analysis/include/Luau/ConstraintSolver.h:39 | A freshly constructed solver satisfies the registry and unsolved-set invariant |
| `Worklist.BlockAll` | Analysis/include/Luau/ConstraintSolver.h:63-66 | Blocking a constraint on several keys lists it under each of them and raises its count by the number of keys. It adds no other listing and leaves other counts unchanged |
| `Worklist.UnblockAll` | Analysis/include/Luau/ConstraintSolver.h:74-77 | Unblocking several keys leaves each of them listing nothing, never raises a count and keeps the registry consistent. Keys outside the batch keep their lists, and a constraint listed under none of the batch's keys keeps its count |
| `Worklist.TryDispatch` | Analysis/include/Luau/ConstraintSolver.h:50-54 | A blocked constraint is not attempted and nothing changes. The attempt succeeds exactly when the handler solves an unblocked constraint. An attempt appends exactly the handler's errors. Success removes exactly that constraint from the unsolved set. It leaves its own key and every key the handler reports as progressed listing nothing. Other keys keep their lists, and a constraint listed under none of those keys keeps its count. A failed attempt keeps the unsolved set, lowers no count, and leaves the constraint blocked if the handler named keys to wait on. A pending attempt changes no other constraint's count |
| `Worklist.Resolve` | Analysis/include/Luau/ConstraintSolver.h:50-54 | The solved branch of `tryDispatch`: the constraint leaves the unsolved set and is not blocked. Its own key and every progressed key list nothing. Other keys keep their lists, no count rises, and a constraint listed under none of those keys keeps its count. The handler's errors are appended |
| `Worklist.Park` | Analysis/include/Luau/ConstraintSolver.h:56-66 | The pending branch of `tryDispatch`: the constraint's count rises by the number of named keys and it is listed under each. No other count changes, no listing is dropped, and the only new listings are the constraint under the named keys. The unsolved set is kept and the handler's errors are appended |
| `Worklist.PendingListsOnlyNamedKeys` | Analysis/include/Luau/ConstraintSolver.h:56-66 | After a pending attempt of an unblocked constraint, a key lists a constraint exactly when it listed it before, or the constraint is the one attempted and the handler named that key |
| `Worklist.PendingRegistersOnlyThisAttempt` | Analysis/include/Luau/ConstraintSolver.h:32-37 | A constraint is attempted only when no key lists it, so after a pending attempt it is listed under exactly the keys that attempt named; no stale blocks accumulate |
| `Worklist.TryDispatchPreservesValid` | Analysis/include/Luau/ConstraintSolver.h:28-30 | Dispatching an unsolved constraint keeps the invariant: blocked constraints are still unsolved, and solved ones never become blocked again |
| `Worklist.Pass` | Analysis/include/Luau/ConstraintSolver.h:41-46 | A scan never adds to the unsolved set and only appends errors. It reports progress exactly when the unsolved set strictly shrank |
| `Worklist.TryDispatchKeepsBlockedUnsolved` | Analysis/include/Luau/ConstraintSolver.h:28-30 | Dispatching an unsolved constraint leaves no solved constraint blocked |
| `Worklist.PassKeepsBlockedUnsolved` | Analysis/include/Luau/ConstraintSolver.h:28-30 | A scan leaves no solved constraint blocked |
| `Worklist.PassPreservesValid` | Analysis/include/Luau/ConstraintSolver.h:28-37 | A scan keeps the registry consistent and every blocked constraint unsolved |
| `Worklist.Run` | Analysis/include/Luau/ConstraintSolver.h:41-48 | `run` terminates. It never adds to the unsolved set and only appends errors. On a solver that is already done it changes nothing and reports nothing |
| `Worklist.RunPreservesValid` | Analysis/include/Luau/ConstraintSolver.h:28-37 | The invariant holds after `run` |
| `Worklist.RunEndsAtFixpoint` | Analysis/include/Luau/ConstraintSolver.h:41-48 | `run` stops either with every constraint solved or right after a full scan that solved nothing |
| `Worklist.StalledPassAttemptsAll` | Analysis/include/Luau/ConstraintSolver.h:41-46 | For handlers whose answer depends only on which constraints are unsolved: a scan that solves nothing keeps the unsolved set and lowers no count. Every unsolved constraint the scan reaches either ends blocked or was attempted, and its handler answered that it must wait |
| `Worklist.RunFixpoint` | Analysis/include/Luau/ConstraintSolver.h:41-46 | For handlers whose answer depends only on which constraints are unsolved: when `run` stops, every constraint still unsolved is blocked, or its handler, asked in the final state, answers that it must wait |
| `Worklist.SilentPassReportsNothing` | Analysis/include/Luau/ConstraintSolver.h:41-46 | Errors reach the solver only from the attempts: if no handler reports an error, a scan leaves the error list unchanged |
| `Worklist.SilentRunReportsNothing` | Analysis/include/Luau/ConstraintSolver.h:41-46 | If no handler reports an error, `run` leaves the error list unchanged, whether or not it finishes |
| `Worklist.PassSolvesVisited` | Analysis/include/Luau/ConstraintSolver.h:41-46 | With nothing blocked and handlers that always succeed, a scan solves exactly the unsolved constraints it visits and blocks nothing |
| `Worklist.RunCompletes` | Analysis/include/Luau/ConstraintSolver.h:41-48 | With nothing blocked and handlers that always succeed, `run` ends done |
| `Worklist.PassParks` | Analysis/include/Luau/ConstraintSolver.h:56-62 | When every attempt waits on something, a scan solves nothing. It keeps blocked constraints blocked and leaves every unsolved constraint it visited blocked, rather than retrying it |
| `Worklist.RunStuck` | Analysis/include/Luau/ConstraintSolver.h:41-48 | When every attempt waits on something, `run` terminates with the unsolved set unchanged and every unsolved constraint blocked |
| `Scenarios.ParkInstantiation` | Analysis/include/Luau/ConstraintSolver.h:56-62 | An instantiation attempted before its scheme is generalized is parked on the scheme's type with a count of one |
| `Scenarios.SolveGeneralization` | Analysis/include/Luau/ConstraintSolver.h:68-77 | Solving the generalization and reporting progress on the scheme's type releases the parked instantiation |
| `Scenarios.InstantiationWaitsForGeneralization` | Analysis/include/Luau/ConstraintSolver.h:50-54 | Although the instantiation is listed before the generalization, the generalization is solved in the first scan and the instantiation in the second. The run ends done with no errors |
| `Scenarios.InstantiationHandlerIsStatusDependent` | Analysis/include/Luau/ConstraintSolver.h:41-54 | The instantiation handler depends only on which constraints are unsolved. So from any fresh solver, `run` stops with every unsolved constraint blocked or still told by that handler to wait |
| `Scenarios.MutualWaitIsStuck` | Analysis/include/Luau/ConstraintSolver.h:41-48 | Two constraints that wait on each other do not make `run` loop: it stops with both unsolved and both blocked, the solver is not done, and no error is reported |

## Left out

- `unify` for types and type packs (lines 87-101): it wraps a unifier and mutates the type arena, and neither is part of this model. Its only visible effect, appending errors, is carried by the oracle's error list.
- The bodies of the per-variant handlers (lines 51-54): they depend on types, scopes and the constraint graph, none of which are part of this model. The oracle stands in for them.
- The type arena, the root scope and the internal error reporter (lines 21-22, 25): these are external collaborators. The constructor's collection of constraints from the root scope becomes a list passed to `Init`.
- `dump` (line 104): pretty-printing only.
- `TypeError` payloads: an error is an opaque value.
- Hash-based iteration order of the source's unordered set and maps: the model scans in the fixed order of `constraints` and makes no claim about the source's order.
- The header says a count entry "can be empty or 0" for a constraint that is not blocked (lines 32-34). The model reads an absent entry as zero. It never creates an entry for a constraint it has not blocked, and a released constraint keeps an entry of 0, so both readings give the same answers.
- The fact that `size_t` counts cannot go negative is not modelled as wrap-around. Counts are `nat`, and the consistency invariant shows a count never goes below zero.
- `BlockingRegistry.Unblock`: requires every listed waiter's count to cover its registrations under the key. `UnblockPreservesConsistent` proves this holds in every consistent state. So the internal-error path for a desynchronised registry is not modelled; it is unreachable.
- `Worklist.RunCompletes`: stated only for handlers that always succeed. The general completion claim, that a graph with some resolution order is always solved, depends on how the real handlers block, and that behaviour is not part of this model.
- `blocked` holds a vector per key (line 37), so registering the same key twice counts twice. The model does the same.
- The header says `unblock` will "wake up" and "resume" waiting constraints. The model resumes them on the next visit of the scan, and `Run` repeats scans until none makes progress.
- `Worklist.RunEndsAtFixpoint`: describes the end state as the result of a full scan that solved nothing. The per-constraint statement is `Worklist.RunFixpoint`.
- `Worklist.StalledPassAttemptsAll`: proved only for handlers whose answer depends on the constraint and on which constraints are unsolved, as the instantiation scenario's handler does. A handler that also reads the registry may answer differently later in the same scan, because the scan's own pending attempts add registrations.
- `Worklist.RunFixpoint`: proved only for the same handlers. For a handler that also reads the registry, the last scan's pending attempts change the registry, so its answer in the final state may differ from the answer it gave during that scan.
- `Scenarios.MutualWaitIsStuck`: no diagnostic is produced for a stuck constraint, because the header declares no step that reports one. Being stuck shows only as the constraint staying unsolved after `run`, so `done()` is false.
- `SolverState.Init`: requires the constraints to be distinct. The source's constraints are distinct objects collected once each, and its unsolved set would attempt a repeated one only once per scan, whereas a scan over a list with repeats would attempt it twice.

=== FILE: registry.dfy ===
/**
 The blocking registry of the constraint solver: `block`, `unblock` and `isBlocked` over the
 per-constraint count map `blockedConstraints` and the reverse map `blocked`.

 The two maps are kept consistent: a constraint's count is the number of times it is recorded
 across all reverse entries (the reverse entries are lists, so registering the same key twice
 counts twice), and no key keeps an empty reverse entry.
 */
module BlockingRegistry {
  import opened SolverState

  type ReverseMap = map<BlockKey, seq<ConstraintId>>

  /** Every registration in the reverse map, as one multiset of constraints. */
  ghost function Waiting(b: ReverseMap): multiset<ConstraintId>
    decreases |b|
  {
    if b == map[] then multiset{}
    else
      var k :| k in b;
      assert (b - {k}).Keys == b.Keys - {k};
      multiset(b[k]) + Waiting(b - {k})
  }

  /** The count map agrees with the reverse map, and no reverse entry is empty. */
  ghost predicate Consistent(s: Solver)
  {
    && (forall c {:trigger Waiting(s.blocked)[c]} :: BlockCount(s, c) == Waiting(s.blocked)[c])
    && (forall k :: k in s.blocked ==> |s.blocked[k]| > 0)
  }

  /** Every waiter under `k` has a count covering its registrations under `k`. */
  ghost predicate CoversRegistrations(s: Solver, k: BlockKey)
  {
    forall c :: multiset(Waiters(s, k))[c] <= BlockCount(s, c)
  }

  /** Taking any one key out of the reverse map splits its registrations off. */
  lemma {:induction false} WaitingRemove(b: ReverseMap, k: BlockKey)
    requires k in b
    ensures Waiting(b) == multiset(b[k]) + Waiting(b - {k})
    decreases |b|
  {
    var k' :| k' in b && Waiting(b) == multiset(b[k']) + Waiting(b - {k'});
    if k' != k {
      assert (b - {k'}).Keys == b.Keys - {k'};
      assert (b - {k}).Keys == b.Keys - {k};
      WaitingRemove(b - {k'}, k);
      WaitingRemove(b - {k}, k');
      assert b - {k'} - {k} == b - {k} - {k'};
    }
  }

  /** A constraint is registered somewhere exactly when some key lists it. */
  lemma {:induction false} WaitingPositive(b: ReverseMap, c: ConstraintId)
    ensures Waiting(b)[c] > 0 <==> exists k :: k in b && c in b[k]
    decreases |b|
  {
    if b != map[] {
      var k :| k in b;
      WaitingRemove(b, k);
      assert (b - {k}).Keys == b.Keys - {k};
      WaitingPositive(b - {k}, c);
      if Waiting(b)[c] > 0 && c !in b[k] {
        var k' :| k' in b - {k} && c in (b - {k})[k'];
        assert k' in b && c in b[k'];
      }
      if exists k' :: k' in b && c in b[k'] {
        var k' :| k' in b && c in b[k'];
        if k' != k {
          assert k' in b - {k} && c in (b - {k})[k'];
        }
      }
    }
  }

  /** In a consistent registry, each key's registrations are covered by the counts. */
  lemma ConsistentCovers(s: Solver, k: BlockKey)
    requires Consistent(s)
    ensures CoversRegistrations(s, k)
  {
    if k in s.blocked {
      WaitingRemove(s.blocked, k);
    }
    forall c ensures multiset(Waiters(s, k))[c] <= BlockCount(s, c) {
      assert BlockCount(s, c) == Waiting(s.blocked)[c];
    }
  }

  /**
   Decrements, once per occurrence, the count of every constraint in `waiters`.
   */
  function Release(counts: map<ConstraintId, nat>, waiters: seq<ConstraintId>): (r: map<ConstraintId, nat>)
    requires forall c :: multiset(waiters)[c] <= Count(counts, c)
    ensures forall c :: Count(r, c) == Count(counts, c) - multiset(waiters)[c]
    decreases |waiters|
  {
    if |waiters| == 0 then counts
    else
      var c := waiters[0];
      var rest := waiters[1..];
      assert waiters == [c] + rest;
      assert multiset(waiters) == multiset{c} + multiset(rest);
      assert multiset(waiters)[c] >= 1;
      var counts' := counts[c := Count(counts, c) - 1];
      assert forall d :: multiset(rest)[d] <= Count(counts', d) by {
        forall d ensures multiset(rest)[d] <= Count(counts', d) {
          assert multiset(waiters)[d] <= Count(counts, d);
        }
      }
      Release(counts', rest)
  }

  /** Records that `c` cannot proceed until `target` makes progress. */
  function Block(s: Solver, target: BlockKey, c: ConstraintId): (r: Solver)
    ensures IsBlocked(r, c)
    ensures c in Waiters(r, target)
    ensures BlockCount(r, c) == BlockCount(s, c) + 1
    ensures forall d :: d != c ==> BlockCount(r, d) == BlockCount(s, d)
    ensures multiset(Waiters(r, target)) == multiset(Waiters(s, target)) + multiset{c}
    ensures forall k :: k != target ==> Waiters(r, k) == Waiters(s, k)
    ensures forall k, d :: d in Waiters(s, k) ==> d in Waiters(r, k)
    ensures forall k, d :: d in Waiters(r, k) ==> d in Waiters(s, k) || (k == target && d == c)
    ensures r.unsolvedConstraints == s.unsolvedConstraints
    ensures r.errors == s.errors && r.constraints == s.constraints
  {
    s.(blocked := s.blocked[target := Waiters(s, target) + [c]],
       blockedConstraints := s.blockedConstraints[c := BlockCount(s, c) + 1])
  }

  /**
   Signals that `progressed` has made progress: every constraint recorded under it is counted as
   waiting on one thing fewer per registration, and the key's reverse entry is dropped.
   */
  function Unblock(s: Solver, progressed: BlockKey): (r: Solver)
    requires CoversRegistrations(s, progressed)
    ensures progressed !in r.blocked && Waiters(r, progressed) == []
    ensures forall k :: k != progressed ==> Waiters(r, k) == Waiters(s, k)
    ensures forall c :: BlockCount(r, c) == BlockCount(s, c) - multiset(Waiters(s, progressed))[c]
    ensures forall c :: c !in Waiters(s, progressed) ==> BlockCount(r, c) == BlockCount(s, c)
    ensures r.unsolvedConstraints == s.unsolvedConstraints
    ensures r.errors == s.errors && r.constraints == s.constraints
  {
    if progressed !in s.blocked then s
    else
      var waiters := s.blocked[progressed];
      assert forall c :: multiset(waiters)[c] <= Count(s.blockedConstraints, c) by {
        forall c ensures multiset(waiters)[c] <= Count(s.blockedConstraints, c) {
          assert multiset(Waiters(s, progressed))[c] <= BlockCount(s, c);
        }
      }
      s.(blockedConstraints := Release(s.blockedConstraints, s.blocked[progressed]),
         blocked := s.blocked - {progressed})
  }

  /** Appending a registration under a key that already has an entry adds exactly that registration. */
  lemma WaitingAppendExisting(b: ReverseMap, k: BlockKey, c: ConstraintId)
    requires k in b
    ensures Waiting(b[k := b[k] + [c]]) == Waiting(b) + multiset{c}
  {
    var b' := b[k := b[k] + [c]];
    WaitingRemove(b', k);
    WaitingRemove(b, k);
    assert b' - {k} == b - {k};
  }

  /** A new entry holding one registration adds exactly that registration. */
  lemma WaitingAppendFresh(b: ReverseMap, k: BlockKey, c: ConstraintId)
    requires k !in b
    ensures Waiting(b[k := [c]]) == Waiting(b) + multiset{c}
  {
    var b' := b[k := [c]];
    WaitingRemove(b', k);
    assert b' - {k} == b;
  }

  /** Appending one registration under a key adds exactly that registration. */
  lemma WaitingAppend(b: ReverseMap, k: BlockKey, c: ConstraintId)
    ensures Waiting(b[k := (if k in b then b[k] else []) + [c]]) == Waiting(b) + multiset{c}
  {
    if k in b {
      WaitingAppendExisting(b, k, c);
    } else {
      assert [] + [c] == [c];
      WaitingAppendFresh(b, k, c);
    }
  }

  lemma BlockPreservesConsistent(s: Solver, target: BlockKey, c: ConstraintId)
    requires Consistent(s)
    ensures Consistent(Block(s, target, c))
  {
    var r := Block(s, target, c);
    WaitingAppend(s.blocked, target, c);
    assert Waiting(r.blocked) == Waiting(s.blocked) + multiset{c};
    forall d ensures BlockCount(r, d) == Waiting(r.blocked)[d] {
      assert BlockCount(s, d) == Waiting(s.blocked)[d];
    }
  }

  lemma UnblockPreservesConsistent(s: Solver, progressed: BlockKey)
    requires Consistent(s)
    ensures CoversRegistrations(s, progressed)
    ensures Consistent(Unblock(s, progressed))
  {
    ConsistentCovers(s, progressed);
    var r := Unblock(s, progressed);
    if progressed in s.blocked {
      WaitingRemove(s.blocked, progressed);
    } else {
      assert r == s;
    }
    forall c ensures BlockCount(r, c) == Waiting(r.blocked)[c] {
      assert BlockCount(s, c) == Waiting(s.blocked)[c];
    }
  }

  /** In a consistent registry, a constraint is blocked exactly when some key lists it. */
  lemma BlockedIffListed(s: Solver, c: ConstraintId)
    requires Consistent(s)
    ensures IsBlocked(s, c) <==> exists k :: c in Waiters(s, k)
  {
    WaitingPositive(s.blocked, c);
    assert BlockCount(s, c) == Waiting(s.blocked)[c];
    if exists k :: c in Waiters(s, k) {
      var k :| c in Waiters(s, k);
      assert k in s.blocked && c in s.blocked[k];
    }
    if exists k :: k in s.blocked && c in s.blocked[k] {
      var k :| k in s.blocked && c in s.blocked[k];
      assert c in Waiters(s, k);
    }
  }

  /**
   Only the keys a constraint is recorded under can release it: after `unblock(k)` a constraint is
   still blocked exactly when some other key lists it.
   */
  lemma UnblockReleasesOnlyListed(s: Solver, k: BlockKey, c: ConstraintId)
    requires Consistent(s)
    ensures CoversRegistrations(s, k)
    ensures IsBlocked(Unblock(s, k), c) <==> exists k' :: k' != k && c in Waiters(s, k')
  {
    UnblockPreservesConsistent(s, k);
    var r := Unblock(s, k);
    BlockedIffListed(r, c);
    if exists k' :: k' != k && c in Waiters(s, k') {
      var k' :| k' != k && c in Waiters(s, k');
      assert c in Waiters(r, k');
    }
  }

  /** The three key flavours never alias: releasing a pack or a constraint with the same number
      as a type leaves a constraint waiting on that type blocked. */
  lemma KeyFlavoursDistinct(s: Solver, n: nat, c: ConstraintId)
    requires Consistent(s)
    requires c in Waiters(s, TypeKey(n))
    ensures CoversRegistrations(s, PackKey(n)) && IsBlocked(Unblock(s, PackKey(n)), c)
    ensures CoversRegistrations(s, ConstraintKey(n)) && IsBlocked(Unblock(s, ConstraintKey(n)), c)
  {
    UnblockReleasesOnlyListed(s, PackKey(n), c);
    UnblockReleasesOnlyListed(s, ConstraintKey(n), c);
  }
}

=== FILE: scenarios.dfy ===
/**
 Concrete runs of the solver on small constraint graphs.
 */
module Scenarios {
  import opened SolverState
  import opened BlockingRegistry
  import opened Worklist

  /** The type handle of the scheme that the generalization constraint produces. */
  const Scheme: BlockKey := TypeKey(7)

  /**
   Constraint 0 instantiates the scheme and constraint 1 generalizes it. The instantiation waits on
   the scheme's type while the generalization is unsolved; the generalization always succeeds and
   reports progress on the scheme's type.
   */
  function InstantiateAfterGeneralize(c: ConstraintId, t: Solver): Attempt
  {
    if c == 0 && 1 in t.unsolvedConstraints then Pending([], [Scheme])
    else if c == 1 then Solved([], [Scheme])
    else Solved([], [])
  }

  /** The state after the instantiation has been parked on the scheme. */
  const Parked: Solver := Solver([0, 1], [], {0, 1}, map[0 := 1], map[Scheme := [0]])

  /** The state after the first pass: the generalization is solved and nothing is blocked. */
  const AfterFirstPass: Solver := Solver([0, 1], [], {0}, map[0 := 0], map[])

  /** Parking the instantiation on the scheme from a fresh solver gives `Parked`. */
  lemma ParkedConsistent()
    ensures Consistent(Init([0, 1])) && Block(Init([0, 1]), Scheme, 0) == Parked
    ensures Consistent(Parked)
  {
    var s0 := Init([0, 1]);
    InitValid([0, 1]);
    BlockPreservesConsistent(s0, Scheme, 0);
    assert s0 == Solver([0, 1], [], {0, 1}, map[], map[]);
    assert Waiters(s0, Scheme) + [0] == [0];
    assert BlockCount(s0, 0) == 0;
  }

  /** The instantiation is attempted first and waits on the scheme. */
  lemma ParkInstantiation()
    ensures TryDispatch(Init([0, 1]), InstantiateAfterGeneralize, 0) == Step(false, Parked)
    ensures Consistent(Parked)
  {
    var s0 := Init([0, 1]);
    ParkedConsistent();
    assert BlockAll(s0, [Scheme], 0) == BlockAll(Parked, [], 0) == Parked;
  }

  /** The state once the generalization has left the unsolved set, before any key is released. */
  const Reported: Solver := Parked.(unsolvedConstraints := {0})

  /** Only the unsolved set differs from `Parked`, so the registry is still consistent. */
  lemma ReportedConsistent()
    ensures Consistent(Reported)
  {
    ParkedConsistent();
    forall c ensures BlockCount(Reported, c) == Waiting(Reported.blocked)[c] {
      assert BlockCount(Parked, c) == Waiting(Parked.blocked)[c];
    }
  }

  /** Releasing the scheme frees the parked instantiation; nothing waits on the generalization. */
  lemma ReleaseSchemeSteps()
    ensures Consistent(Reported) && CoversRegistrations(Reported, ConstraintKey(1))
    ensures Unblock(Reported, ConstraintKey(1)) == Reported
    ensures UnblockAll(Reported, [Scheme]) == AfterFirstPass
  {
    ReportedConsistent();
    assert Release(map[0 := 1], [0]) == Release(map[0 := 0], []) == map[0 := 0];
    assert Reported.blocked - {Scheme} == map[];
    assert Unblock(Reported, Scheme) == AfterFirstPass;
    assert UnblockAll(Reported, [Scheme]) == UnblockAll(AfterFirstPass, []) == AfterFirstPass;
  }

  /** Solving the generalization drops it from the unsolved set and releases the scheme's waiter. */
  lemma ReleaseScheme()
    ensures Consistent(Parked) && !IsBlocked(Parked, 1) && Resolve(Parked, 1, [], [Scheme]) == AfterFirstPass
  {
    ParkedConsistent();
    ReleaseSchemeSteps();
    assert !IsBlocked(Parked, 1);
    assert ReportErrors(Parked, []).(unsolvedConstraints := Parked.unsolvedConstraints - {1}) == Reported;
  }


  /** The generalization succeeds and releases the instantiation waiting on the scheme. */
  lemma SolveGeneralization()
    ensures Consistent(Parked) && TryDispatch(Parked, InstantiateAfterGeneralize, 1) == Step(true, AfterFirstPass)
  {
    ReleaseScheme();
    assert InstantiateAfterGeneralize(1, Parked) == Solved([], [Scheme]);
  }

  lemma FirstPass()
    ensures Pass(Init([0, 1]), InstantiateAfterGeneralize, 0) == Step(true, AfterFirstPass)
  {
    var o := InstantiateAfterGeneralize;
    var s0 := Init([0, 1]);
    ParkInstantiation();
    SolveGeneralization();
    assert Pass(AfterFirstPass, o, 2) == Step(false, AfterFirstPass);
    assert Pass(Parked, o, 1) == Step(true, AfterFirstPass);
    assert s0.constraints[0] == 0 && 0 in s0.unsolvedConstraints && !IsBlocked(s0, 0);
    assert Pass(s0, o, 0) == Step(false || true, Pass(Parked, o, 1).state);
  }

  lemma SecondPass()
    ensures Pass(AfterFirstPass, InstantiateAfterGeneralize, 0) ==
      Step(true, AfterFirstPass.(unsolvedConstraints := {}))
  {
  }

  /**
   Listed first, the instantiation is parked on the scheme during the first pass; the
   generalization then solves and releases it, and the second pass solves it. No error is reported.
   */
  lemma InstantiationWaitsForGeneralization()
    ensures Pass(Init([0, 1]), InstantiateAfterGeneralize, 0).state.unsolvedConstraints == {0}
    ensures Done(Run(Init([0, 1]), InstantiateAfterGeneralize))
    ensures Run(Init([0, 1]), InstantiateAfterGeneralize).errors == []
  {
    var o := InstantiateAfterGeneralize;
    FirstPass();
    SecondPass();
    var solved := AfterFirstPass.(unsolvedConstraints := {});
    assert Run(AfterFirstPass, o) == Run(solved, o) == solved;
    assert Run(Init([0, 1]), o) == Run(AfterFirstPass, o);
  }

  /**
   The instantiation handler reads only which constraints are unsolved, so the fixpoint property
   applies to it: when `run` stops, nothing unsolved is both unblocked and solvable.
   */
  lemma InstantiationHandlerIsStatusDependent(constraints: seq<ConstraintId>)
    requires Distinct(constraints)
    ensures StatusDependent(InstantiateAfterGeneralize)
    ensures forall c :: c in Run(Init(constraints), InstantiateAfterGeneralize).unsolvedConstraints ==>
      IsBlocked(Run(Init(constraints), InstantiateAfterGeneralize), c) ||
      InstantiateAfterGeneralize(c, Run(Init(constraints), InstantiateAfterGeneralize)).Pending?
  {
    InitValid(constraints);
    RunFixpoint(Init(constraints), InstantiateAfterGeneralize);
  }

  /** Constraints 0 and 1 each wait on the other's completion. */
  function MutualWait(c: ConstraintId, t: Solver): Attempt
  {
    if c == 0 then Pending([], [ConstraintKey(1)])
    else Pending([], [ConstraintKey(0)])
  }

  /**
   A cyclic wait does not loop: `run` stops with both constraints unsolved and blocked. Being stuck
   shows only as the solver not being done; no error is reported for it.
   */
  lemma MutualWaitIsStuck()
    ensures Run(Init([0, 1]), MutualWait).unsolvedConstraints == {0, 1}
    ensures IsBlocked(Run(Init([0, 1]), MutualWait), 0)
    ensures IsBlocked(Run(Init([0, 1]), MutualWait), 1)
    ensures !Done(Run(Init([0, 1]), MutualWait))
    ensures Run(Init([0, 1]), MutualWait).errors == []
  {
  }
}

=== FILE: state.dfy ===
/**
 The bookkeeping state of Luau's constraint solver (Analysis/include/Luau/ConstraintSolver.h).

 Constraints are identified by natural numbers. A blocking key stands for a type, a type pack or
 another constraint; the solver only ever compares keys, so a three-case datatype compared for
 equality replaces the type-erased pointer of the source.
 */
module SolverState {

  type ConstraintId = nat

  /** What a constraint can be waiting on. Keys are compared, never inspected. */
  datatype BlockKey = TypeKey(id: nat) | PackKey(id: nat) | ConstraintKey(id: nat)

  /** A reported type error; its payload is opaque to the solver. */
  datatype TypeError = TypeError(code: nat)

  /**
   The solver's fields:
   - `constraints`: every constraint the solver tries to resolve, in a fixed order;
   - `errors`: the diagnostics reported so far;
   - `unsolvedConstraints`: every constraint not yet fully solved;
   - `blockedConstraints`: how many registrations each constraint is waiting on (absent means 0);
   - `blocked`: for each key, the constraints registered as waiting on it.
   */
  datatype Solver = Solver(
    constraints: seq<ConstraintId>,
    errors: seq<TypeError>,
    unsolvedConstraints: set<ConstraintId>,
    blockedConstraints: map<ConstraintId, nat>,
    blocked: map<BlockKey, seq<ConstraintId>>)

  /** A count map read with "absent means zero". */
  function Count(counts: map<ConstraintId, nat>, c: ConstraintId): nat
  {
    if c in counts then counts[c] else 0
  }

  /** The number of things `c` is blocked on. */
  function BlockCount(s: Solver, c: ConstraintId): nat
  {
    Count(s.blockedConstraints, c)
  }

  /** The constraints recorded under `k`; a key with no entry lists nothing. */
  function Waiters(s: Solver, k: BlockKey): seq<ConstraintId>
  {
    if k in s.blocked then s.blocked[k] else []
  }

  /**
   Whether the constraint is blocked on anything. A constraint with no count entry, or with an
   entry of 0, is not blocked.
   */
  predicate IsBlocked(s: Solver, c: ConstraintId)
  {
    BlockCount(s, c) > 0
  }

  /**
   Read over the raw count map, a constraint is blocked exactly when it has an entry and that
   entry is positive: a missing entry and an entry of 0 both mean "not blocked".
   */
  lemma IsBlockedMeansPositiveEntry(s: Solver, c: ConstraintId)
    ensures IsBlocked(s, c) <==> c in s.blockedConstraints && s.blockedConstraints[c] > 0
  {
  }

  /** Whether every constraint has been solved. */
  predicate Done(s: Solver): (d: bool)
    ensures d <==> forall c :: c !in s.unsolvedConstraints
  {
    s.unsolvedConstraints == {}
  }

  /** No constraint appears twice: the solver's constraints are distinct objects. */
  predicate Distinct(cs: seq<ConstraintId>)
  {
    forall i, j :: 0 <= i < j < |cs| ==> cs[i] != cs[j]
  }

  /** A fresh solver: every constraint is unsolved and nothing is blocked or reported. */
  function Init(constraints: seq<ConstraintId>): (s: Solver)
    requires Distinct(constraints)
    ensures s.constraints == constraints
    ensures forall c :: c in s.unsolvedConstraints <==> c in constraints
    ensures forall c :: !IsBlocked(s, c)
    ensures forall k :: Waiters(s, k) == []
    ensures s.errors == []
    ensures Done(s) <==> |constraints| == 0
  {
    var s := Solver(constraints, [], set c | c in constraints, map[], map[]);
    assert |constraints| > 0 ==> constraints[0] in s.unsolvedConstraints;
    s
  }

  /** Appends a batch of errors; earlier errors and all other fields are kept. */
  function ReportErrors(s: Solver, errs: seq<TypeError>): (r: Solver)
    ensures |r.errors| == |s.errors| + |errs|
    ensures r.errors[..|s.errors|] == s.errors
    ensures r.errors[|s.errors|..] == errs
    ensures r.constraints == s.constraints
    ensures r.unsolvedConstraints == s.unsolvedConstraints
    ensures r.blockedConstraints == s.blockedConstraints
    ensures r.blocked == s.blocked
  {
    s.(errors := s.errors + errs)
  }

  /** Reporting two batches in turn is the same as reporting them as one batch, in order. */
  lemma ReportErrorsBatches(s: Solver, a: seq<TypeError>, b: seq<TypeError>)
    ensures ReportErrors(ReportErrors(s, a), b) == ReportErrors(s, a + b)
  {
  }
}

=== FILE: worklist.dfy ===
/**
 The worklist of the constraint solver: `tryDispatch`, `run` and `done`.

 The per-variant handlers (subtype, pack subtype, generalization, instantiation) are replaced by
 an oracle: given a constraint and the current state, it either solves the constraint or asks to
 wait on some keys, and in both cases may report errors (the errors of the unifier it would run).
 Passes over the unsolved constraints follow the fixed order of `constraints`.
 */
module Worklist {
  import opened SolverState
  import opened BlockingRegistry

  /** What one handler attempt produced. */
  datatype Attempt =
    | Solved(errs: seq<TypeError>, progressed: seq<BlockKey>)
    | Pending(errs: seq<TypeError>, waitOn: seq<BlockKey>)

  /** The per-variant dispatch handlers, as a function of the constraint and the solver state. */
  type Oracle = (ConstraintId, Solver) -> Attempt

  /** The outcome of a dispatch or of a pass: whether anything was solved, and the new state. */
  datatype Step = Step(solved: bool, state: Solver)

  /**
   The reachable-state invariant: the constraints are distinct, the registry is consistent, a
   blocked constraint is still unsolved, and every unsolved constraint is one of the solver's
   constraints.
   */
  ghost predicate Valid(s: Solver)
  {
    && Distinct(s.constraints)
    && Consistent(s)
    && BlockedAreUnsolved(s)
    && (forall c :: c in s.unsolvedConstraints ==> c in s.constraints)
  }

  /** A solved constraint waits on nothing. */
  ghost predicate BlockedAreUnsolved(s: Solver)
  {
    forall c :: IsBlocked(s, c) ==> c in s.unsolvedConstraints
  }

  /** A fresh solver satisfies the invariant. */
  lemma InitValid(constraints: seq<ConstraintId>)
    requires Distinct(constraints)
    ensures Valid(Init(constraints))
  {
  }

  /** Blocks `c` on each key in turn. */
  function BlockAll(s: Solver, keys: seq<BlockKey>, c: ConstraintId): (r: Solver)
    requires Consistent(s)
    ensures Consistent(r)
    ensures BlockCount(r, c) == BlockCount(s, c) + |keys|
    ensures forall d :: d != c ==> BlockCount(r, d) == BlockCount(s, d)
    ensures forall k :: k in keys ==> c in Waiters(r, k)
    ensures forall k, d :: d in Waiters(s, k) ==> d in Waiters(r, k)
    ensures forall k, d :: d in Waiters(r, k) ==> d in Waiters(s, k) || (k in keys && d == c)
    ensures r.unsolvedConstraints == s.unsolvedConstraints
    ensures r.errors == s.errors && r.constraints == s.constraints
    decreases |keys|
  {
    if |keys| == 0 then s
    else
      BlockPreservesConsistent(s, keys[0], c);
      var r := BlockAll(Block(s, keys[0], c), keys[1..], c);
      assert forall k :: k in keys ==> k == keys[0] || k in keys[1..];
      r
  }

  /** Unblocks each key in turn. */
  function UnblockAll(s: Solver, keys: seq<BlockKey>): (r: Solver)
    requires Consistent(s)
    ensures Consistent(r)
    ensures forall c :: BlockCount(r, c) <= BlockCount(s, c)
    ensures forall k :: k in keys ==> Waiters(r, k) == []
    ensures forall k :: Waiters(s, k) == [] ==> Waiters(r, k) == []
    ensures forall k :: k !in keys ==> Waiters(r, k) == Waiters(s, k)
    ensures forall c :: (forall k :: k in keys ==> c !in Waiters(s, k)) ==>
      BlockCount(r, c) == BlockCount(s, c)
    ensures r.unsolvedConstraints == s.unsolvedConstraints
    ensures r.errors == s.errors && r.constraints == s.constraints
    decreases |keys|
  {
    if |keys| == 0 then s
    else
      UnblockPreservesConsistent(s, keys[0]);
      var u := Unblock(s, keys[0]);
      var r := UnblockAll(u, keys[1..]);
      assert forall k :: k in keys ==> k == keys[0] || k in keys[1..];
      assert forall c :: (forall k :: k in keys ==> c !in Waiters(s, k)) ==>
        BlockCount(r, c) == BlockCount(s, c) by {
        forall c | forall k :: k in keys ==> c !in Waiters(s, k)
          ensures BlockCount(r, c) == BlockCount(s, c)
        {
          assert c !in Waiters(s, keys[0]);
          forall k | k in keys[1..] ensures c !in Waiters(u, k) {
            assert k in keys;
          }
        }
      }
      r
  }

  /** The solved branch of a dispatch: `c` leaves the unsolved set and its waiters are released. */
  function Resolve(s: Solver, c: ConstraintId, errs: seq<TypeError>, progressed: seq<BlockKey>): (r: Solver)
    requires Consistent(s) && !IsBlocked(s, c)
    ensures Consistent(r)
    ensures r.unsolvedConstraints == s.unsolvedConstraints - {c}
    ensures !IsBlocked(r, c) && Waiters(r, ConstraintKey(c)) == []
    ensures forall d :: BlockCount(r, d) <= BlockCount(s, d)
    ensures forall k :: k in progressed ==> Waiters(r, k) == []
    ensures forall k :: k != ConstraintKey(c) && k !in progressed ==> Waiters(r, k) == Waiters(s, k)
    ensures forall d ::
      d !in Waiters(s, ConstraintKey(c)) && (forall k :: k in progressed ==> d !in Waiters(s, k)) ==>
      BlockCount(r, d) == BlockCount(s, d)
    ensures r.errors == s.errors + errs && r.constraints == s.constraints
  {
    var reported := ReportErrors(s, errs).(unsolvedConstraints := s.unsolvedConstraints - {c});
    UnblockPreservesConsistent(reported, ConstraintKey(c));
    var released := Unblock(reported, ConstraintKey(c));
    assert forall d :: d !in Waiters(s, ConstraintKey(c)) && (forall k :: k in progressed ==> d !in Waiters(s, k)) ==>
      forall k :: k in progressed ==> d !in Waiters(released, k);
    UnblockAll(released, progressed)
  }

  /** The pending branch of a dispatch: `c` is blocked on each key its handler named. */
  function Park(s: Solver, c: ConstraintId, errs: seq<TypeError>, waitOn: seq<BlockKey>): (r: Solver)
    requires Consistent(s)
    ensures Consistent(r)
    ensures BlockCount(r, c) == BlockCount(s, c) + |waitOn|
    ensures forall d :: d != c ==> BlockCount(r, d) == BlockCount(s, d)
    ensures forall k :: k in waitOn ==> c in Waiters(r, k)
    ensures forall k, d :: d in Waiters(s, k) ==> d in Waiters(r, k)
    ensures forall k, d :: d in Waiters(r, k) ==> d in Waiters(s, k) || (d == c && k in waitOn)
    ensures r.unsolvedConstraints == s.unsolvedConstraints
    ensures r.errors == s.errors + errs && r.constraints == s.constraints
  {
    BlockAll(ReportErrors(s, errs), waitOn, c)
  }

  /**
   Attempts to dispatch `c`. A blocked constraint is not attempted. A solved constraint leaves the
   unsolved set and every constraint waiting on it is released; a pending one is blocked on the
   keys its handler named. Errors are reported in both cases.
   */
  function TryDispatch(s: Solver, oracle: Oracle, c: ConstraintId): (r: Step)
    requires Consistent(s)
    ensures Consistent(r.state)
    ensures IsBlocked(s, c) ==> r == Step(false, s)
    ensures r.solved <==> !IsBlocked(s, c) && oracle(c, s).Solved?
    ensures r.solved ==> r.state.unsolvedConstraints == s.unsolvedConstraints - {c}
    ensures r.solved ==> !IsBlocked(r.state, c) && Waiters(r.state, ConstraintKey(c)) == []
    ensures r.solved ==> forall d :: BlockCount(r.state, d) <= BlockCount(s, d)
    ensures !r.solved ==> r.state.unsolvedConstraints == s.unsolvedConstraints
    ensures !r.solved ==> forall d :: BlockCount(r.state, d) >= BlockCount(s, d)
    ensures r.solved ==> forall k :: k in oracle(c, s).progressed ==> Waiters(r.state, k) == []
    ensures r.solved ==> forall k :: k != ConstraintKey(c) && k !in oracle(c, s).progressed ==>
      Waiters(r.state, k) == Waiters(s, k)
    ensures r.solved ==> forall d ::
      d !in Waiters(s, ConstraintKey(c)) && (forall k :: k in oracle(c, s).progressed ==> d !in Waiters(s, k)) ==>
      BlockCount(r.state, d) == BlockCount(s, d)
    ensures !IsBlocked(s, c) && oracle(c, s).Pending? && |oracle(c, s).waitOn| > 0 ==> IsBlocked(r.state, c)
    ensures !IsBlocked(s, c) && oracle(c, s).Pending? ==>
      forall d :: d != c ==> BlockCount(r.state, d) == BlockCount(s, d)
    ensures !IsBlocked(s, c) ==> r.state.errors == s.errors + oracle(c, s).errs
    ensures s.errors <= r.state.errors
    ensures r.state.constraints == s.constraints
  {
    if IsBlocked(s, c) then Step(false, s)
    else
      match oracle(c, s)
      case Solved(errs, progressed) => Step(true, Resolve(s, c, errs, progressed))
      case Pending(errs, waitOn) => Step(false, Park(s, c, errs, waitOn))
  }

  /**
   No stale blocks: a constraint is only attempted once it is listed under no key, so after a
   pending attempt it is listed under exactly the keys that attempt named.
   */
  lemma PendingRegistersOnlyThisAttempt(s: Solver, oracle: Oracle, c: ConstraintId, k: BlockKey)
    requires Consistent(s)
    requires !IsBlocked(s, c) && oracle(c, s).Pending?
    ensures c in Waiters(TryDispatch(s, oracle, c).state, k) <==> k in oracle(c, s).waitOn
  {
    BlockedIffListed(s, c);
    assert c !in Waiters(s, k);
  }

  /**
   A pending attempt adds listings only for `c`, and only under the keys its handler named; no
   existing listing is dropped.
   */
  lemma PendingListsOnlyNamedKeys(s: Solver, oracle: Oracle, c: ConstraintId)
    requires Consistent(s)
    requires !IsBlocked(s, c) && oracle(c, s).Pending?
    ensures forall k, d :: d in Waiters(TryDispatch(s, oracle, c).state, k) <==>
      d in Waiters(s, k) || (d == c && k in oracle(c, s).waitOn)
  {
  }

  /** Dispatching an unsolved constraint keeps the reachable-state invariant. */
  lemma TryDispatchPreservesValid(s: Solver, oracle: Oracle, c: ConstraintId)
    requires Valid(s)
    requires c in s.unsolvedConstraints
    ensures Valid(TryDispatch(s, oracle, c).state)
  {
  }

  /**
   One scan over the constraints from position `i`: each unsolved, unblocked constraint is
   attempted once. The scan made progress exactly when the unsolved set shrank.
   */
  function Pass(s: Solver, oracle: Oracle, i: nat): (r: Step)
    requires Consistent(s)
    requires i <= |s.constraints|
    ensures Consistent(r.state)
    ensures r.state.constraints == s.constraints
    ensures r.state.unsolvedConstraints <= s.unsolvedConstraints
    ensures r.solved <==> r.state.unsolvedConstraints < s.unsolvedConstraints
    ensures s.errors <= r.state.errors
    decreases |s.constraints| - i
  {
    if i == |s.constraints| then Step(false, s)
    else
      var c := s.constraints[i];
      if c in s.unsolvedConstraints && !IsBlocked(s, c) then
        var d := TryDispatch(s, oracle, c);
        var rest := Pass(d.state, oracle, i + 1);
        Step(d.solved || rest.solved, rest.state)
      else
        Pass(s, oracle, i + 1)
  }

  /** Dispatching an unsolved constraint never leaves a solved constraint blocked. */
  lemma TryDispatchKeepsBlockedUnsolved(s: Solver, oracle: Oracle, c: ConstraintId)
    requires Consistent(s) && BlockedAreUnsolved(s)
    requires c in s.unsolvedConstraints
    ensures BlockedAreUnsolved(TryDispatch(s, oracle, c).state)
  {
  }

  /** A scan never leaves a solved constraint blocked. */
  lemma {:induction false} PassKeepsBlockedUnsolved(s: Solver, oracle: Oracle, i: nat)
    requires Consistent(s) && BlockedAreUnsolved(s)
    requires i <= |s.constraints|
    ensures BlockedAreUnsolved(Pass(s, oracle, i).state)
    decreases |s.constraints| - i
  {
    if i < |s.constraints| {
      var c := s.constraints[i];
      if c in s.unsolvedConstraints && !IsBlocked(s, c) {
        var d := TryDispatch(s, oracle, c);
        assert Pass(s, oracle, i).state == Pass(d.state, oracle, i + 1).state;
        TryDispatchKeepsBlockedUnsolved(s, oracle, c);
        PassKeepsBlockedUnsolved(d.state, oracle, i + 1);
      } else {
        assert Pass(s, oracle, i) == Pass(s, oracle, i + 1);
        PassKeepsBlockedUnsolved(s, oracle, i + 1);
      }
    }
  }

  lemma PassPreservesValid(s: Solver, oracle: Oracle, i: nat)
    requires Valid(s)
    requires i <= |s.constraints|
    ensures Valid(Pass(s, oracle, i).state)
  {
    PassKeepsBlockedUnsolved(s, oracle, i);
  }


  lemma ShrinkingSet(a: set<ConstraintId>, b: set<ConstraintId>)
    requires a < b
    ensures |a| < |b|
  {
    var x :| x in b - a;
    assert b == a + (b - a);
    assert x in b - a;
  }

  /**
   Repeats passes while they make progress. Each progressing pass solves at least one constraint,
   so the loop ends: either every constraint is solved or a full pass solved nothing.
   */
  function Run(s: Solver, oracle: Oracle): (r: Solver)
    requires Consistent(s)
    ensures Consistent(r)
    ensures r.constraints == s.constraints
    ensures r.unsolvedConstraints <= s.unsolvedConstraints
    ensures s.errors <= r.errors
    ensures Done(s) ==> r == s
    decreases |s.unsolvedConstraints|
  {
    if Done(s) then s
    else
      var p := Pass(s, oracle, 0);
      if p.solved then
        ShrinkingSet(p.state.unsolvedConstraints, s.unsolvedConstraints);
        Run(p.state, oracle)
      else p.state
  }

  lemma {:induction false} RunPreservesValid(s: Solver, oracle: Oracle)
    requires Valid(s)
    ensures Valid(Run(s, oracle))
    decreases |s.unsolvedConstraints|
  {
    if !Done(s) {
      PassPreservesValid(s, oracle, 0);
      var p := Pass(s, oracle, 0);
      if p.solved {
        ShrinkingSet(p.state.unsolvedConstraints, s.unsolvedConstraints);
        RunPreservesValid(p.state, oracle);
      }
    }
  }

  /** The loop stops at a fixpoint: either nothing is left, or its last full pass solved nothing. */
  lemma {:induction false} RunEndsAtFixpoint(s: Solver, oracle: Oracle)
    requires Consistent(s)
    ensures var r := Run(s, oracle);
      Done(r) || exists t :: Consistent(t) && Pass(t, oracle, 0) == Step(false, r)
    decreases |s.unsolvedConstraints|
  {
    if !Done(s) {
      var p := Pass(s, oracle, 0);
      if p.solved {
        ShrinkingSet(p.state.unsolvedConstraints, s.unsolvedConstraints);
        RunEndsAtFixpoint(p.state, oracle);
      } else {
        assert Consistent(s) && Pass(s, oracle, 0) == Step(false, Run(s, oracle));
      }
    }
  }

  /**
   The handler's answer for a constraint depends only on which constraints are still unsolved, as
   when a handler waits exactly while the constraint producing its input is unsolved.
   */
  ghost predicate StatusDependent(oracle: Oracle)
  {
    forall c, t: Solver, u: Solver :: t.unsolvedConstraints == u.unsolvedConstraints ==> oracle(c, t) == oracle(c, u)
  }

  /** A status-dependent handler answers alike in two states with the same unsolved set. */
  lemma SameStatusSameAnswer(oracle: Oracle, c: ConstraintId, t: Solver, u: Solver)
    requires StatusDependent(oracle)
    requires t.unsolvedConstraints == u.unsolvedConstraints
    ensures oracle(c, t) == oracle(c, u)
  {
  }

  /**
   A scan that solves nothing leaves the unsolved set and releases nothing, and every unsolved
   constraint it visits either ends blocked or was attempted and answered that it must wait.
   */
  lemma {:induction false} StalledPassAttemptsAll(s: Solver, oracle: Oracle, i: nat)
    requires Consistent(s) && StatusDependent(oracle)
    requires i <= |s.constraints|
    requires !Pass(s, oracle, i).solved
    ensures Pass(s, oracle, i).state.unsolvedConstraints == s.unsolvedConstraints
    ensures forall d :: BlockCount(Pass(s, oracle, i).state, d) >= BlockCount(s, d)
    ensures forall c :: c in s.unsolvedConstraints && c in s.constraints[i..] ==>
      IsBlocked(Pass(s, oracle, i).state, c) || oracle(c, s).Pending?
    decreases |s.constraints| - i
  {
    if i < |s.constraints| {
      var c := s.constraints[i];
      assert s.constraints[i..] == [c] + s.constraints[i + 1..];
      if c in s.unsolvedConstraints && !IsBlocked(s, c) {
        var d := TryDispatch(s, oracle, c);
        assert !d.solved;
        assert oracle(c, s).Pending?;
        StalledPassAttemptsAll(d.state, oracle, i + 1);
        forall e | e in s.unsolvedConstraints && e in s.constraints[i + 1..]
          ensures IsBlocked(Pass(s, oracle, i).state, e) || oracle(e, s).Pending?
        {
          SameStatusSameAnswer(oracle, e, d.state, s);
        }
      } else {
        StalledPassAttemptsAll(s, oracle, i + 1);
      }
    }
  }

  /**
   Fixpoint: when `run` stops, every constraint still unsolved is blocked or its handler, asked in
   the final state, answers that it must wait.
   */
  lemma {:induction false} RunFixpoint(s: Solver, oracle: Oracle)
    requires Valid(s) && StatusDependent(oracle)
    ensures forall c :: c in Run(s, oracle).unsolvedConstraints ==>
      IsBlocked(Run(s, oracle), c) || oracle(c, Run(s, oracle)).Pending?
    decreases |s.unsolvedConstraints|
  {
    if !Done(s) {
      var p := Pass(s, oracle, 0);
      PassPreservesValid(s, oracle, 0);
      if p.solved {
        ShrinkingSet(p.state.unsolvedConstraints, s.unsolvedConstraints);
        RunFixpoint(p.state, oracle);
      } else {
        StalledPassAttemptsAll(s, oracle, 0);
        assert s.constraints[0..] == s.constraints;
        forall c | c in Run(s, oracle).unsolvedConstraints
          ensures IsBlocked(Run(s, oracle), c) || oracle(c, Run(s, oracle)).Pending?
        {
          SameStatusSameAnswer(oracle, c, p.state, s);
        }
      }
    }
  }

  /** No handler reports an error. */
  ghost predicate Silent(oracle: Oracle)
  {
    forall c, t :: oracle(c, t).errs == []
  }

  /** Errors reach the solver only through the handlers: silent handlers leave a scan's errors alone. */
  lemma {:induction false} SilentPassReportsNothing(s: Solver, oracle: Oracle, i: nat)
    requires Consistent(s) && Silent(oracle)
    requires i <= |s.constraints|
    ensures Pass(s, oracle, i).state.errors == s.errors
    decreases |s.constraints| - i
  {
    if i < |s.constraints| {
      var c := s.constraints[i];
      if c in s.unsolvedConstraints && !IsBlocked(s, c) {
        assert oracle(c, s).errs == [];
        SilentPassReportsNothing(TryDispatch(s, oracle, c).state, oracle, i + 1);
      } else {
        SilentPassReportsNothing(s, oracle, i + 1);
      }
    }
  }

  /** With silent handlers, `run` reports no error, whether or not it finishes. */
  lemma {:induction false} SilentRunReportsNothing(s: Solver, oracle: Oracle)
    requires Consistent(s) && Silent(oracle)
    ensures Run(s, oracle).errors == s.errors
    decreases |s.unsolvedConstraints|
  {
    if !Done(s) {
      var p := Pass(s, oracle, 0);
      SilentPassReportsNothing(s, oracle, 0);
      if p.solved {
        ShrinkingSet(p.state.unsolvedConstraints, s.unsolvedConstraints);
        SilentRunReportsNothing(p.state, oracle);
      }
    }
  }

  /** Every handler resolves its constraint in one attempt (as the subtype handlers do). */
  ghost predicate AlwaysSolves(oracle: Oracle)
  {
    forall c, t :: oracle(c, t).Solved?
  }

  /** Every constraint of `cs` always asks to wait on at least one key. */
  ghost predicate AlwaysWaits(oracle: Oracle, cs: seq<ConstraintId>)
  {
    forall c, t :: c in cs ==> oracle(c, t).Pending? && |oracle(c, t).waitOn| > 0
  }

  ghost predicate NoneBlocked(s: Solver)
  {
    forall c :: !IsBlocked(s, c)
  }

  /** With nothing blocked and handlers that always succeed, a pass solves everything it visits. */
  lemma {:induction false} PassSolvesVisited(s: Solver, oracle: Oracle, i: nat)
    requires Consistent(s) && NoneBlocked(s) && AlwaysSolves(oracle)
    requires i <= |s.constraints|
    ensures NoneBlocked(Pass(s, oracle, i).state)
    ensures forall c :: c in Pass(s, oracle, i).state.unsolvedConstraints <==>
      c in s.unsolvedConstraints && c !in s.constraints[i..]
    decreases |s.constraints| - i
  {
    if i < |s.constraints| {
      var c := s.constraints[i];
      assert s.constraints[i..] == [c] + s.constraints[i + 1..];
      if c in s.unsolvedConstraints {
        var d := TryDispatch(s, oracle, c);
        assert oracle(c, s).Solved?;
        assert NoneBlocked(d.state) by {
          forall e ensures !IsBlocked(d.state, e) {
            assert !IsBlocked(s, e);
          }
        }
        PassSolvesVisited(d.state, oracle, i + 1);
      } else {
        PassSolvesVisited(s, oracle, i + 1);
      }
    }
  }

  /** Completion: with nothing blocked and handlers that always succeed, `run` solves everything. */
  lemma RunCompletes(s: Solver, oracle: Oracle)
    requires Valid(s) && NoneBlocked(s) && AlwaysSolves(oracle)
    ensures Done(Run(s, oracle))
  {
    if !Done(s) {
      PassSolvesVisited(s, oracle, 0);
      var p := Pass(s, oracle, 0);
      assert p.state.unsolvedConstraints == {};
    }
  }

  /**
   When every attempt asks to wait, a pass solves nothing, releases nothing, and leaves every
   unsolved constraint it visited blocked.
   */
  lemma {:induction false} PassParks(s: Solver, oracle: Oracle, i: nat)
    requires Consistent(s) && AlwaysWaits(oracle, s.constraints)
    requires i <= |s.constraints|
    ensures !Pass(s, oracle, i).solved
    ensures Pass(s, oracle, i).state.unsolvedConstraints == s.unsolvedConstraints
    ensures forall c :: IsBlocked(s, c) ==> IsBlocked(Pass(s, oracle, i).state, c)
    ensures forall c :: c in s.unsolvedConstraints && c in s.constraints[i..] ==>
      IsBlocked(Pass(s, oracle, i).state, c)
    decreases |s.constraints| - i
  {
    if i < |s.constraints| {
      var c := s.constraints[i];
      assert s.constraints[i..] == [c] + s.constraints[i + 1..];
      if c in s.unsolvedConstraints && !IsBlocked(s, c) {
        var d := TryDispatch(s, oracle, c);
        assert oracle(c, s).Pending? && |oracle(c, s).waitOn| > 0;
        PassParks(d.state, oracle, i + 1);
      } else {
        PassParks(s, oracle, i + 1);
      }
    }
  }

  /**
   When every constraint keeps waiting, `run` still stops, with every constraint still unsolved
   and each one parked as blocked rather than retried. No diagnostic is added for them.
   */
  lemma RunStuck(s: Solver, oracle: Oracle)
    requires Valid(s) && AlwaysWaits(oracle, s.constraints)
    ensures Run(s, oracle).unsolvedConstraints == s.unsolvedConstraints
    ensures forall c :: c in s.unsolvedConstraints ==> IsBlocked(Run(s, oracle), c)
  {
    if !Done(s) {
      PassParks(s, oracle, 0);
    }
  }
}
